=== FILE: README.md ===
# standx-mm quoting engine in Dafny

A model of the decision core of the standx-mm market maker. The maker keeps
at most one resting buy and one resting sell limit order near the last
traded price of one perpetual-futures symbol. It tracks those orders, and
its position, in a local *shadow* state. On every price update or timer
wake-up it runs one *tick*, a fixed sequence of stages:

1. timed force-flat: cancel everything and close the position with a
   reduce-only market order;
2. wait for a price;
3. hard position cap;
4. profit-taking reduction to half the maximum position;
5. cancellation of stale quotes;
6. volatility gate;
7. placement of missing quotes, tick-aligned (floor for buys, ceiling for
   sells).

The first stage that acts ends the tick.

The model also covers the account monitor's pure parts:
- the latched equity-drop and position-size alerts;
- the twelve-hour uptime bar;
- the display name derived from a config path.

It also covers the construction of the configuration record from the loaded
YAML mapping.

The exchange is modelled as data, not as calls. Every answer the exchange
can give, whether a reply, a listing or a raised exception, is an input
to the stage that asks for it. Every call a stage makes is recorded in an
`Action` trace. The same holds for the clock (`now`) and the fresh
eight-hex-digit id suffixes (`token`). Prices and quantities are exact
`real`s.

Modules, one per component:

| module | contents |
|---|---|
| `Wrappers` | `Option`, `Result` |
| `Shadow` | the local order/position state |
| `Exchange` | replies, listings and the action trace |
| `Configuration` | `config.py` |
| `Pricing` | tick size and alignment |
| `Risk` | force-flat and profit-taking |
| `Maker` | start-up, stale cancels, placement and the tick |
| `Monitor` | `monitor.py` |

Behaviour of the code worth knowing, all of it stated in the contracts:

- A force-flat whose market order is rejected or raises does not end the
  tick (core/maker.py:141-143, 436-450). The same tick then continues, and
  after the cancel-all and the market order it may still profit-take,
  cancel or quote. `Maker.Tick` states this: the force-flat actions are a
  prefix of the trace, and only an accepted force-flat order ends the tick.
- Both quotes are placed around the last price (core/maker.py:204-205).
  With a last price of 50010 and 10 bps on a BTC symbol, the buy goes out
  at 49959.99 and the sell at 50060.01 (`Maker.ExampleQuotePrices`).
- When a placement is accepted, the shadow order records the price *before*
  tick alignment (core/maker.py:252). The aligned price is the one sent.
- A market order (reduction or force-flat) counts as accepted when the reply
  has `code == 0` *or* carries an `id` (core/maker.py:352, 428). A limit
  order counts only with `code == 0` (core/maker.py:247).

## Model

| member | source | states |
|---|---|---|
| Configuration.FromDict | config.py:27-39 | construction succeeds exactly when every key without a default is present and the wallet mapping has exactly the keywords `chain` and `private_key`; on success every field is copied from its key, `rebalance_distance_bps` defaults to 20 and `force_flat_check_sec` to 5; a missing wallet is reported first, a bad wallet is reported exactly when the wallet is present without exactly those keywords, otherwise the first absent required key in evaluation order |
| Configuration.WalletFromDict | config.py:29 | `WalletConfig(**d)` succeeds iff the keys are exactly `chain` and `private_key`, and then copies both |
| Configuration.FromDictRoundTrip | config.py:27-39 | the mapping that lists every field of a configuration rebuilds exactly that configuration |
| Configuration.FromDictDefaults | config.py:33-38 | leaving out the two defaulted keys is the same as giving 20 and 5 |
| Pricing.FloorTicks | core/maker.py:229-230 | the buy-side tick count is the largest whose price does not exceed the target |
| Pricing.CeilTicks | core/maker.py:231-232 | the sell-side tick count is the smallest whose price is not below the target |
| Pricing.AlignedPrice | core/maker.py:228-232 | the aligned price is a whole number of ticks, at or below a buy target and at or above a sell target, less than one tick away |
| Pricing.QuoteDistanceKept | core/maker.py:204-232 | after alignment a buy is at least `order_distance_bps` below the last price and a sell at least that far above it |
| Maker.SeedOrdersLastWins | core/maker.py:78-92 | when the exchange lists several orders for a side, the last one listed ends up in that side's slot |
| Maker.SeedOrdersUnlisted | core/maker.py:78-92 | a side with no listed order (including unknown side strings) keeps its slot |
| Maker.Initialize | core/maker.py:64-92 | start-up succeeds iff both queries answer; the position becomes the first reported quantity or 0; price and timers are untouched and the slots stay side-consistent |
| Maker.InitializeAdoptsOrders | core/maker.py:64-92 | after start-up each slot holds the last listed order of its side, or is unchanged when none is listed |
| Maker.OnPriceUpdate | core/maker.py:100-108 | a price update sets the last price and leaves orders, position and the force-flat timer alone |
| Maker.CancelOne | core/maker.py:170-181 | one cancel call per order; the slot is cleared only if the call does not raise, and the other side is untouched |
| Maker.CancelStale | core/maker.py:163-184 | the stage ends the tick iff some shadow order is flagged; the trace is exactly one cancel for the flagged buy order, then one for the flagged sell order; a slot is cleared exactly when its order was flagged and its cancel did not raise |
| Maker.PlaceOrder | core/maker.py:215-271 | one limit order of the configured size, id `mm-<side>-<token>`, at a whole-tick price less than a tick from the requested one on the safe side; only `code == 0` records it, with the requested price, and any other reply or an exception leaves the shadow unchanged |
| Pricing.TickSize | core/maker.py:220-226 | the tick is 0.01 for symbols starting with `BTC` and 0.1 for every other symbol |
| Maker.PlaceIfMissing | core/maker.py:207-213 | a side that already has an order is left alone; an empty side gets one quote and is filled only on acceptance |
| Maker.PlaceMissing | core/maker.py:197-213 | without a price nothing happens; otherwise the trace is the buy quote if the buy slot is empty, then the sell quote if the sell slot is empty, and each empty slot is filled exactly when its quote was accepted |
| Maker.QuoteKeepsDistance | core/maker.py:203-232 | every quote is a configured-size limit order on whole ticks, at least the configured distance from the last price on the safe side |
| Maker.AfterReduce | core/maker.py:163-195 | stages five to seven end as Cancelled iff some order is flagged, with exactly one cancel for the flagged buy then the flagged sell order, and then each slot is empty exactly when its order was flagged and its cancel did not raise, the other slots unchanged; as VolatilityHeld (no calls, shadow unchanged) iff none is flagged and the volatility exceeds the threshold; and otherwise quote, with exactly the buy quote if the buy slot is empty then the sell quote if the sell slot is empty, occupied slots kept, and an empty slot filled with the quote's id, side, target price and size exactly when its reply was accepted |
| Maker.AfterCap | core/maker.py:158-195 | stages four to seven keep position and price; they end as Reduced iff the reduction order was accepted, and then with only the reduction's calls and the shadow unchanged; otherwise the resulting shadow is exactly that of stages five to seven and the trace is the reduction's calls followed by exactly their calls, ending as Cancelled iff some order is flagged, as VolatilityHeld iff none is and the volatility exceeds the threshold, and quoting otherwise |
| Maker.AfterFlat | core/maker.py:145-195 | after force-flat, the tick stops as NoPrice iff no price is known and as Capped iff the absolute position reaches the maximum, both without calls and with the shadow unchanged; past those gates it ends as Reduced iff the reduction was accepted, with only the reduction's calls, and otherwise the resulting shadow is exactly that of stages five to seven and the trace is the reduction's calls followed by exactly their calls; it quotes only when every guard passes |
| Maker.Tick | core/maker.py:138-195 | the tick starts with force-flat's calls; it ends as Flattened iff the flatten order was accepted, as NoPrice iff no price is known, as Capped iff the absolute position reaches the maximum, each with only force-flat's calls and force-flat's shadow; past those gates it ends as Reduced iff the reduction was accepted, with force-flat's and the reduction's calls, and otherwise the resulting shadow is exactly what stages five to seven make of force-flat's shadow and the trace is force-flat's calls, the reduction's calls and exactly the cancels or quotes of those stages; it ends as Cancelled iff no reduction was accepted and some order is flagged, as VolatilityHeld iff no reduction was accepted, nothing is flagged and the volatility exceeds the threshold, and quotes only when every guard passes; the price is untouched |
| Maker.TickQuotesWhenGuardsPass | core/maker.py:138-195 | conversely, when force-flat does not end the tick and every later guard passes, the tick quotes |
| Maker.TickClearsOnlyOnConfirmedCancel | core/maker.py:163-184 | a shadow order disappears only through a confirmed force-flat cancel-all or its own unraised stale cancel |
| Maker.TickSetsOnlyOnAcceptance | core/maker.py:197-254 | a shadow order appears only when its quote was sent this tick and accepted with `code == 0`, and it records the quote id, size and pre-alignment target |
| Maker.ExampleTickQuotes | core/maker.py:138-213 | with force-flat off, a last price of 50010, a flat position, nothing flagged and low volatility, the tick sends a buy quote then a sell quote |
| Maker.ExampleQuotePrices | core/maker.py:204-232 | for BTC at 10 bps around 50010, the quotes are 49959.99 (buy) and 50060.01 (sell) |
| Risk.FlatCancelAll | core/maker.py:394-408 | the open orders are listed, then cancelled in one batch call with exactly their ids (no call when none are listed); the shadow is cleared only if neither the listing nor the cancel raised |
| Risk.FlatInterval | core/maker.py:371-373 | the force-flat interval is the configured seconds when positive and 0, which switches force-flat off, otherwise |
| Risk.ForceFlat | core/maker.py:369-450 | not due: nothing happens; due: the check time becomes now before querying; a failed query ends the stage; the reported quantity overwrites the position; a zero position stops there; otherwise the trace is exactly the position query, the listing of open orders, one batch cancel of their ids when there are any, and one reduce-only market order for the whole position, id `flat-<token>`; the tick ends exactly when that order is accepted |
| Risk.ForceFlatClosesPosition | core/maker.py:410-427 | the force-flat order, once filled, leaves a zero position |
| Risk.Reduce | core/maker.py:289-367 | at or under 70% of the maximum nothing is sent; above it the positions are queried once, and only when the uPnL is strictly positive one reduce-only market order of the absolute position minus 50% of the maximum follows, id `reduce-<token>`; otherwise the query is the only call; the stage ends the tick iff that order is accepted; the shadow is never changed |
| Risk.ReduceLandsOnTarget | core/maker.py:300-328 | the reduction order has a positive size and, once filled, leaves the position on the same side at exactly half the maximum |
| Risk.ClosingSide | core/maker.py:325-328 | a long position is reduced or closed by selling, a flat or short one by buying |
| Monitor.CheckEquityAlert | monitor.py:239-257 | without a positive initial equity nothing happens; otherwise a drop of 10% or more raises the flag, a drop under 8% clears it, in between it is kept, and a notification goes out only when the flag goes from clear to set |
| Monitor.EquityAlertNotifiesOnce | monitor.py:246-257 | while the drop stays at or above 8%, a run of polls notifies at most once, and never if the alert was already raised |
| Monitor.CheckPositionAlert | monitor.py:260-273 | an absolute position above five order sizes raises the flag, under half of that clears it, in between it is kept; a notification only on the raising poll |
| Monitor.PositionAlertNotifiesOnce | monitor.py:265-273 | while the absolute position stays at or above half the threshold, a run of polls notifies at most once, and never if already raised |
| Monitor.UptimeHours | monitor.py:119-127 | an hour is in the uptime set iff some parsed entry falls in it |
| Monitor.UnparseableIgnored | monitor.py:121-127 | an entry whose timestamp does not parse changes nothing |
| Monitor.BuildUptimeBar | monitor.py:107-138 | the bar has twelve slots, oldest on the left and the current hour on the right, and slot k is full exactly when the hour eleven minus k hours ago has data |
| Monitor.ReplaceAll | monitor.py:267 | `str.replace` leaves a string with no occurrence of the pattern unchanged, never lengthens a string when the replacement is no longer than the pattern, and replacing a pattern by itself is the identity |
| Monitor.ReplaceAllAtPattern | monitor.py:267 | a leading occurrence of the pattern is replaced and the scan resumes after it, so occurrences are replaced left to right without overlapping |
| Monitor.ReplaceAllSkipsPrefix | monitor.py:267 | a prefix holding no first character of the pattern is copied unchanged |
| Monitor.AccountNameOfDefault | monitor.py:267 | `config.yaml` names the account `main` |
| Monitor.AccountNameOfNamed | monitor.py:280 | `config-<name>.yaml` names the account `<name>` when the name has no `.` or `c` |

## Left out

- Notifications, the reduce log and the status log file are left out: they are side effects that never feed back into a decision.
- The asyncio run loop, `stop`, and the one-second pause after a tick exception are left out. One `Tick` models one iteration.
- `core/state.py` is not part of this model. The shadow's get/set/clear operations are modelled directly. The choice of which orders are stale (`get_orders_to_cancel`) is an input flag per side. The volatility reading is an input. The eviction of the price window is left out.
- The stale-cancel stage cancels buy before sell. The order in which `get_orders_to_cancel` lists them is not known here.
- `Maker.OnPriceUpdate`: records only the last price. The volatility-window bookkeeping belongs to the state tracker.
- The HTTP client, authentication and `referral.py` are left out. The exchange's answers are inputs.
- These monitor functions are left out: the queries, `init_account`, `poll_account`, `send_status_report`, `write_status_log`, `monitor_loop`, `main` and `parse_args`. They are I/O around the pure parts modelled here.
- `load_config` is left out: it does file existence checks and YAML parsing.
- The raw mapping's values are typed here. A mistyped value, or a key beyond the ones read, is not modelled, because Python's dynamic typing would only fail later.
- Uptime timestamps: ISO-8601 parsing, including `Z` and offset handling, is an input. Each entry is classified as its UTC hour or as `Unparseable`. An entry the bar can never match is classified `Unparseable`: a naive timestamp without an offset, or an offset that is not a whole number of hours.
- Uptime entries that are not mappings are left out: `h.get` (monitor.py:122) raises outside the `try`, so the bar is not built at all. The model cannot represent such an entry.
- Monitor.BuildUptimeBar: the current hour is a parameter, not read from the clock.
- Floating point and string formatting are left out: prices and quantities are exact reals. `:.3f` quantities and `:.2f`/`:.1f` prices are sent as their exact values.
- Two branches are omitted because they cannot be taken: `reduce_qty <= 0` (core/maker.py:321-322) and `close_qty <= 0` (core/maker.py:413-414). The code has already established that the quantity is positive.
- Monitor.AccountNameOfNamed: proved only for names without `.` or `c`. Other names can contain a further `config` or `.yaml` that the chain of replacements also rewrites.
- Monitor.EquityAlertNotifiesOnce: the bound assumes no poll re-arms the alert. A recovery below the re-arm level legitimately allows a new notification.

=== FILE: configuration.dfy ===
/**
 * The immutable configuration record and its construction from the loaded
 * YAML mapping (config.py `Config.from_dict`).
 */
module Configuration {
  import opened Wrappers

  datatype WalletConfig = WalletConfig(chain: string, privateKey: string)

  datatype Config = Config(
    wallet: WalletConfig,
    symbol: string,
    orderDistanceBps: int,
    cancelDistanceBps: int,
    rebalanceDistanceBps: int,
    orderSizeBtc: real,
    maxPositionBtc: real,
    volatilityWindowSec: int,
    volatilityThresholdBps: int,
    forceFlatCheckSec: int)

  /**
   * The loaded mapping: each field is the value under the key of the same
   * name, or None when the key is absent. The `wallet` entry is itself a
   * mapping from keyword to string.
   */
  datatype RawConfig = RawConfig(
    wallet: Option<map<string, string>>,
    symbol: Option<string>,
    orderDistanceBps: Option<int>,
    cancelDistanceBps: Option<int>,
    rebalanceDistanceBps: Option<int>,
    orderSizeBtc: Option<real>,
    maxPositionBtc: Option<real>,
    volatilityWindowSec: Option<int>,
    volatilityThresholdBps: Option<int>,
    forceFlatCheckSec: Option<int>)

  /**
   * Why construction fails: a required key is absent (`KeyError`), or the
   * wallet mapping does not supply exactly the keywords `chain` and
   * `private_key` (`TypeError` from the keyword call).
   */
  datatype ConfigError = MissingKey(key: string) | BadWallet

  const DefaultRebalanceDistanceBps := 20
  const DefaultForceFlatCheckSec := 5

  /** `WalletConfig(**d)`: the keyword call succeeds only with exactly the two fields. */
  function WalletFromDict(d: map<string, string>): (r: Result<WalletConfig, ConfigError>)
    ensures r.Success? <==> d.Keys == {"chain", "private_key"}
    ensures r.Success? ==> r.value.chain == d["chain"] && r.value.privateKey == d["private_key"]
    ensures r.Failure? ==> r.error == BadWallet
  {
    if d.Keys == {"chain", "private_key"} then
      Success(WalletConfig(d["chain"], d["private_key"]))
    else
      Failure(BadWallet)
  }

  /** All keys that have no default are present. */
  predicate HasRequiredKeys(d: RawConfig)
  {
    && d.wallet.Some? && d.symbol.Some? && d.orderDistanceBps.Some?
    && d.cancelDistanceBps.Some? && d.orderSizeBtc.Some? && d.maxPositionBtc.Some?
    && d.volatilityWindowSec.Some? && d.volatilityThresholdBps.Some?
  }

  /**
   * `Config.from_dict`. The keyword arguments are evaluated in declaration
   * order, so the first absent required key (or a bad wallet, which is
   * evaluated first) is the error reported.
   */
  function FromDict(d: RawConfig): (r: Result<Config, ConfigError>)
    ensures r.Success? <==> HasRequiredKeys(d) && d.wallet.value.Keys == {"chain", "private_key"}
    ensures r.Success? ==>
      && r.value.wallet == WalletConfig(d.wallet.value["chain"], d.wallet.value["private_key"])
      && r.value.symbol == d.symbol.value
      && r.value.orderDistanceBps == d.orderDistanceBps.value
      && r.value.cancelDistanceBps == d.cancelDistanceBps.value
      && r.value.orderSizeBtc == d.orderSizeBtc.value
      && r.value.maxPositionBtc == d.maxPositionBtc.value
      && r.value.volatilityWindowSec == d.volatilityWindowSec.value
      && r.value.volatilityThresholdBps == d.volatilityThresholdBps.value
      && r.value.rebalanceDistanceBps == (if d.rebalanceDistanceBps.Some? then d.rebalanceDistanceBps.value else DefaultRebalanceDistanceBps)
      && r.value.forceFlatCheckSec == (if d.forceFlatCheckSec.Some? then d.forceFlatCheckSec.value else DefaultForceFlatCheckSec)
    ensures d.wallet.None? ==> r == Failure(MissingKey("wallet"))
    ensures d.wallet.Some? && d.wallet.value.Keys != {"chain", "private_key"} ==> r == Failure(BadWallet)
    ensures r == Failure(BadWallet) ==> d.wallet.Some? && d.wallet.value.Keys != {"chain", "private_key"}
    ensures r.Failure? && r.error.MissingKey? ==>
      exists i :: 0 <= i < |RequiredKeys| && RequiredKeys[i] == r.error.key
        && !KeyPresent(d, RequiredKeys[i])
        && forall j :: 0 <= j < i ==> KeyPresent(d, RequiredKeys[j])
  {
    match d.wallet
    case None =>
      assert RequiredKeys[0] == "wallet";
      Failure(MissingKey("wallet"))
    case Some(w) =>
      match WalletFromDict(w)
      case Failure(e) => Failure(e)
      case Success(wallet) =>
        if d.symbol.None? then
          assert RequiredKeys[1] == "symbol";
          Failure(MissingKey("symbol"))
        else if d.orderDistanceBps.None? then
          assert RequiredKeys[2] == "order_distance_bps";
          Failure(MissingKey("order_distance_bps"))
        else if d.cancelDistanceBps.None? then
          assert RequiredKeys[3] == "cancel_distance_bps";
          Failure(MissingKey("cancel_distance_bps"))
        else if d.orderSizeBtc.None? then
          assert RequiredKeys[4] == "order_size_btc";
          Failure(MissingKey("order_size_btc"))
        else if d.maxPositionBtc.None? then
          assert RequiredKeys[5] == "max_position_btc";
          Failure(MissingKey("max_position_btc"))
        else if d.volatilityWindowSec.None? then
          assert RequiredKeys[6] == "volatility_window_sec";
          Failure(MissingKey("volatility_window_sec"))
        else if d.volatilityThresholdBps.None? then
          assert RequiredKeys[7] == "volatility_threshold_bps";
          Failure(MissingKey("volatility_threshold_bps"))
        else
          Success(Config(
            wallet,
            d.symbol.value,
            d.orderDistanceBps.value,
            d.cancelDistanceBps.value,
            d.rebalanceDistanceBps.GetOr(DefaultRebalanceDistanceBps),
            d.orderSizeBtc.value,
            d.maxPositionBtc.value,
            d.volatilityWindowSec.value,
            d.volatilityThresholdBps.value,
            d.forceFlatCheckSec.GetOr(DefaultForceFlatCheckSec)))
  }

  /** Is the key of this name present in the mapping? */
  predicate KeyPresent(d: RawConfig, key: string)
  {
    match key
    case "wallet" => d.wallet.Some?
    case "symbol" => d.symbol.Some?
    case "order_distance_bps" => d.orderDistanceBps.Some?
    case "cancel_distance_bps" => d.cancelDistanceBps.Some?
    case "rebalance_distance_bps" => d.rebalanceDistanceBps.Some?
    case "order_size_btc" => d.orderSizeBtc.Some?
    case "max_position_btc" => d.maxPositionBtc.Some?
    case "volatility_window_sec" => d.volatilityWindowSec.Some?
    case "volatility_threshold_bps" => d.volatilityThresholdBps.Some?
    case "force_flat_check_sec" => d.forceFlatCheckSec.Some?
    case _ => false
  }

  /** The mapping that lists every field of `c` under its key. */
  function ToDict(c: Config): RawConfig
  {
    RawConfig(
      Some(map["chain" := c.wallet.chain, "private_key" := c.wallet.privateKey]),
      Some(c.symbol), Some(c.orderDistanceBps), Some(c.cancelDistanceBps),
      Some(c.rebalanceDistanceBps), Some(c.orderSizeBtc), Some(c.maxPositionBtc),
      Some(c.volatilityWindowSec), Some(c.volatilityThresholdBps), Some(c.forceFlatCheckSec))
  }

  /** Every configuration is rebuilt exactly from the mapping that lists all its fields. */
  lemma FromDictRoundTrip(c: Config)
    ensures FromDict(ToDict(c)) == Success(c)
  {
    var w := map["chain" := c.wallet.chain, "private_key" := c.wallet.privateKey];
    assert w.Keys == {"chain", "private_key"};
  }

  /** Leaving out a defaulted key is the same as giving it its default value. */
  lemma FromDictDefaults(d: RawConfig)
    requires d.rebalanceDistanceBps.None? && d.forceFlatCheckSec.None?
    ensures FromDict(d) == FromDict(d.(rebalanceDistanceBps := Some(DefaultRebalanceDistanceBps),
                                   forceFlatCheckSec := Some(DefaultForceFlatCheckSec)))
  {
  }

  /** The keys `from_dict` reads without a default, in evaluation order. */
  const RequiredKeys: seq<string> := [
    "wallet", "symbol", "order_distance_bps", "cancel_distance_bps",
    "order_size_btc", "max_position_btc", "volatility_window_sec",
    "volatility_threshold_bps"]
}

=== FILE: exchange.dfy ===
/**
 * The exchange gateway as the maker sees it: the replies it can receive and
 * the calls it issues. Replies are inputs of the model; calls are recorded
 * as a trace of actions.
 */
module Exchange {
  import opened Wrappers
  import opened Shadow

  /** One entry of a position query. */
  datatype PositionEntry = PositionEntry(qty: real, upnl: real)

  /** One entry of an open-orders query; the side is the exchange's string. */
  datatype ListedOrder = ListedOrder(clOrdId: string, side: string, price: real, qty: real)

  /** A query either answers or raises. */
  datatype Raised = Raised
  type Reply<T> = Result<T, Raised>

  /**
   * The reply to `new_order`: a JSON object that may carry a `code` and may
   * carry an `id`, or an exception raised by the client.
   */
  datatype OrderReply = Reply(code: Option<int>, hasId: bool) | OrderRaised

  /** A limit order counts as placed only on `code == 0`. */
  predicate LimitAccepted(r: OrderReply)
  {
    r.Reply? && r.code == Some(0)
  }

  /** A market order counts as placed on `code == 0` or when the reply carries an id. */
  predicate MarketAccepted(r: OrderReply)
  {
    r.Reply? && (r.code == Some(0) || r.hasId)
  }

  /** The calls the maker makes to the exchange. Market orders are always sent with price "0". */
  datatype Action =
    | QueryPositions
    | QueryOpenOrders
    | CancelOrder(clOrdId: string)
    | CancelOrders(clOrdIds: seq<string>)
    | NewLimitOrder(side: Side, qty: real, price: real, clOrdId: string)
    | NewMarketOrder(side: Side, qty: real, clOrdId: string, reduceOnly: bool)

  /** A new limit order (a quote). */
  predicate IsLimitOrder(a: Action)
  {
    a.NewLimitOrder?
  }

  /** A single-order cancel (the stale-order stage's call). */
  predicate IsSingleCancel(a: Action)
  {
    a.CancelOrder?
  }

  /** No call in the trace passes the test `p`. */
  predicate NoneMatch(acts: seq<Action>, p: Action -> bool)
  {
    forall i :: 0 <= i < |acts| ==> !p(acts[i])
  }

  lemma NoneMatchConcat(a: seq<Action>, b: seq<Action>, p: Action -> bool)
    ensures NoneMatch(a + b, p) <==> NoneMatch(a, p) && NoneMatch(b, p)
  {
    if NoneMatch(a, p) && NoneMatch(b, p) {
      forall i | 0 <= i < |a + b| ensures !p((a + b)[i]) {
        if i >= |a| { assert (a + b)[i] == b[i - |a|]; }
      }
    }
    if NoneMatch(a + b, p) {
      forall i | 0 <= i < |a| ensures !p(a[i]) {
        assert (a + b)[i] == a[i];
      }
      forall i | 0 <= i < |b| ensures !p(b[i]) {
        assert (a + b)[|a| + i] == b[i];
      }
    }
  }

  /** The exchange's lower-case side names. */
  function SideName(side: Side): string
  {
    if side == Buy then "buy" else "sell"
  }
}

=== FILE: maker.dfy ===
/**
 * The per-tick decision engine (core/maker.py `Maker`): start-up seeding
 * from the exchange, the stale-order cancellation and quote placement
 * stages, and the tick that runs every stage in its fixed order.
 */
module Maker {
  import opened Wrappers
  import opened Shadow
  import opened Exchange
  import opened Configuration
  import opened Pricing
  import opened Risk

  /** One value per side. */
  datatype PerSide<T> = PerSide(buy: T, sell: T)
  {
    function Get(side: Side): T
    {
      if side == Buy then buy else sell
    }
  }

  // ---------------------------------------------------------------------
  // Start-up
  // ---------------------------------------------------------------------

  /** The shadow order adopted from an exchange listing on `side`. */
  function Adopt(o: ListedOrder, side: Side): Order
  {
    Order(o.clOrdId, side, o.price, o.qty)
  }

  /** Entry `i` is the last listed order on the side named `name`. */
  predicate LastListed(orders: seq<ListedOrder>, i: int, name: string)
    requires 0 <= i < |orders|
  {
    orders[i].side == name && forall k :: i < k < |orders| ==> orders[k].side != name
  }

  /**
   * Adopt the listed open orders into the shadow, one at a time in listing
   * order: "buy" and "sell" entries overwrite their side's slot, any other
   * side string is skipped, so the last entry of a side wins.
   */
  function SeedOrders(s: ShadowState, orders: seq<ListedOrder>): (r: ShadowState)
    ensures r.position == s.position && r.lastPrice == s.lastPrice
    ensures r.lastForceFlatCheck == s.lastForceFlatCheck
    ensures s.Valid() ==> r.Valid()
  {
    if |orders| == 0 then s
    else
      var prev := SeedOrders(s, orders[..|orders| - 1]);
      var o := orders[|orders| - 1];
      if o.side == "buy" then SetOrder(prev, Buy, Some(Adopt(o, Buy)))
      else if o.side == "sell" then SetOrder(prev, Sell, Some(Adopt(o, Sell)))
      else prev
  }

  /** When several listed orders share a side, the last one listed ends up in the slot. */
  lemma {:induction false} SeedOrdersLastWins(s: ShadowState, orders: seq<ListedOrder>, i: int, side: Side)
    requires 0 <= i < |orders| && LastListed(orders, i, SideName(side))
    ensures SeedOrders(s, orders).Slot(side) == Some(Adopt(orders[i], side))
  {
    var last := |orders| - 1;
    if i < last {
      var prefix := orders[..last];
      assert prefix[i] == orders[i];
      assert LastListed(prefix, i, SideName(side));
      SeedOrdersLastWins(s, prefix, i, side);
      assert orders[last].side != SideName(side);
    }
  }

  /** A side with no listed order keeps whatever its slot held before. */
  lemma {:induction false} SeedOrdersUnlisted(s: ShadowState, orders: seq<ListedOrder>, side: Side)
    requires forall k :: 0 <= k < |orders| ==> orders[k].side != SideName(side)
    ensures SeedOrders(s, orders).Slot(side) == s.Slot(side)
  {
    if |orders| > 0 {
      var prefix := orders[..|orders| - 1];
      assert forall k :: 0 <= k < |prefix| ==> prefix[k] == orders[k];
      SeedOrdersUnlisted(s, prefix, side);
    }
  }

  /**
   * `initialize`: the position is the first reported one, or 0 when none is
   * reported; then the open orders are adopted. A raising query aborts
   * start-up.
   */
  function Initialize(s: ShadowState, positions: Reply<seq<PositionEntry>>, orders: Reply<seq<ListedOrder>>)
    : (r: Result<ShadowState, Raised>)
    ensures r.Success? <==> positions.Success? && orders.Success?
    ensures r.Success? ==>
      && r.value.position == ReportedQty(positions.value)
      && r.value.lastPrice == s.lastPrice
      && r.value.lastForceFlatCheck == s.lastForceFlatCheck
      && (s.Valid() ==> r.value.Valid())
  {
    match positions
    case Failure(e) => Failure(e)
    case Success(ps) =>
      var positioned := UpdatePosition(s, ReportedQty(ps));
      match orders
      case Failure(e) => Failure(e)
      case Success(os) => Success(SeedOrders(positioned, os))
  }

  /**
   * After start-up each side's slot holds the last listed order of that
   * side, or is untouched when the exchange lists none.
   */
  lemma InitializeAdoptsOrders(s: ShadowState, ps: seq<PositionEntry>, os: seq<ListedOrder>, side: Side)
    ensures var r := Initialize(s, Success(ps), Success(os));
      && r.Success?
      && (forall i :: 0 <= i < |os| && LastListed(os, i, SideName(side)) ==>
            r.value.Slot(side) == Some(Adopt(os[i], side)))
      && ((forall k :: 0 <= k < |os| ==> os[k].side != SideName(side)) ==> r.value.Slot(side) == s.Slot(side))
  {
    var positioned := UpdatePosition(s, ReportedQty(ps));
    forall i | 0 <= i < |os| && LastListed(os, i, SideName(side))
      ensures SeedOrders(positioned, os).Slot(side) == Some(Adopt(os[i], side))
    {
      SeedOrdersLastWins(positioned, os, i, side);
    }
    if forall k :: 0 <= k < |os| ==> os[k].side != SideName(side) {
      SeedOrdersUnlisted(positioned, os, side);
    }
  }

  /** `on_price_update` as far as the tick sees it: the last price becomes `price`. */
  function OnPriceUpdate(s: ShadowState, price: real): (r: ShadowState)
    ensures r.lastPrice == Some(price)
    ensures r.buy == s.buy && r.sell == s.sell && r.position == s.position
    ensures r.lastForceFlatCheck == s.lastForceFlatCheck
  {
    s.(lastPrice := Some(price))
  }

  // ---------------------------------------------------------------------
  // Stale-order cancellation
  // ---------------------------------------------------------------------

  /** The shadow order of `side` is present and flagged for cancellation. */
  predicate Flagged(s: ShadowState, flagged: PerSide<bool>, side: Side)
  {
    flagged.Get(side) && s.Slot(side).Some?
  }

  /** Cancel one flagged order; its side's slot is cleared only when the call does not raise. */
  function CancelOne(s: ShadowState, o: Order, raised: bool): (r: (ShadowState, Action))
    ensures r.1 == CancelOrder(o.clOrdId)
    ensures raised ==> r.0 == s
    ensures !raised ==> r.0.Slot(o.side).None? && r.0.Slot(Opposite(o.side)) == s.Slot(Opposite(o.side))
    ensures r.0.position == s.position && r.0.lastPrice == s.lastPrice
    ensures r.0.lastForceFlatCheck == s.lastForceFlatCheck
  {
    if raised then (s, CancelOrder(o.clOrdId))
    else (SetOrder(s, o.side, None), CancelOrder(o.clOrdId))
  }

  /**
   * The stale-order stage: every flagged shadow order (buy, then sell) gets
   * one cancel call. If any order was flagged the tick ends, whether or not
   * the cancels succeeded.
   */
  function CancelStale(s: ShadowState, flagged: PerSide<bool>, raised: PerSide<bool>): (r: StageResult)
    requires s.Valid()
    ensures r.handled <==> Flagged(s, flagged, Buy) || Flagged(s, flagged, Sell)
    ensures !r.handled ==> r == StageResult(false, s, [])
    ensures r.state.Valid()
    ensures r.state.position == s.position && r.state.lastPrice == s.lastPrice
    ensures r.state.lastForceFlatCheck == s.lastForceFlatCheck
    ensures forall side: Side ::
      r.state.Slot(side) == (if Flagged(s, flagged, side) && !raised.Get(side) then None else s.Slot(side))
    ensures r.actions ==
      (if Flagged(s, flagged, Buy) then [CancelOrder(s.buy.value.clOrdId)] else []) +
      (if Flagged(s, flagged, Sell) then [CancelOrder(s.sell.value.clOrdId)] else [])
  {
    var (afterBuy, buyActs) :=
      if Flagged(s, flagged, Buy) then
        var (t, a) := CancelOne(s, s.buy.value, raised.buy);
        (t, [a])
      else (s, []);
    var (afterSell, sellActs) :=
      if Flagged(s, flagged, Sell) then
        var (t, a) := CancelOne(afterBuy, s.sell.value, raised.sell);
        (t, [a])
      else (afterBuy, []);
    StageResult(Flagged(s, flagged, Buy) || Flagged(s, flagged, Sell), afterSell, buyActs + sellActs)
  }

  // ---------------------------------------------------------------------
  // Quote placement
  // ---------------------------------------------------------------------

  /** The exchange's answer to one limit order, and the fresh id suffix it is sent with. */
  datatype PlaceInput = PlaceInput(reply: OrderReply, token: string)

  /** The client order id of a quote: `mm-<side>-<fresh suffix>`. */
  function QuoteId(side: Side, token: string): string
  {
    "mm-" + SideName(side) + "-" + token
  }

  /**
   * `_place_order`: send one limit order of the configured size at the
   * tick-aligned price; on `code == 0` remember it in the side's slot with
   * the price before alignment. Anything else leaves the shadow as it was.
   */
  function PlaceOrder(cfg: Config, s: ShadowState, side: Side, price: real, pin: PlaceInput)
    : (r: (ShadowState, Action))
    ensures r.1.NewLimitOrder? && r.1.side == side && r.1.qty == cfg.orderSizeBtc
    ensures r.1.clOrdId == QuoteId(side, pin.token)
    ensures side == Buy ==> r.1.price <= price && price - r.1.price < TickSize(cfg.symbol)
    ensures side == Sell ==> r.1.price >= price && r.1.price - price < TickSize(cfg.symbol)
    ensures WholeTicks(r.1.price, TickSize(cfg.symbol))
    ensures LimitAccepted(pin.reply) ==>
      r.0.Slot(side) == Some(Order(QuoteId(side, pin.token), side, price, cfg.orderSizeBtc))
    ensures !LimitAccepted(pin.reply) ==> r.0 == s
    ensures r.0.Slot(Opposite(side)) == s.Slot(Opposite(side))
    ensures r.0.position == s.position && r.0.lastPrice == s.lastPrice
    ensures r.0.lastForceFlatCheck == s.lastForceFlatCheck
  {
    var tick := TickSize(cfg.symbol);
    var id := QuoteId(side, pin.token);
    var sent := NewLimitOrder(side, cfg.orderSizeBtc, AlignedPrice(side, price, tick), id);
    if LimitAccepted(pin.reply) then (SetOrder(s, side, Some(Order(id, side, price, cfg.orderSizeBtc))), sent)
    else (s, sent)
  }

  /** The limit order sent for `side` when quoting around `lastPrice`. */
  function Quote(cfg: Config, side: Side, lastPrice: real, pin: PlaceInput): Action
  {
    var target := Target(side, lastPrice, cfg.orderDistanceBps);
    NewLimitOrder(side, cfg.orderSizeBtc, AlignedPrice(side, target, TickSize(cfg.symbol)), QuoteId(side, pin.token))
  }

  /** Quote `side` only when its slot is empty. */
  function PlaceIfMissing(cfg: Config, s: ShadowState, side: Side, lastPrice: real, pin: PlaceInput)
    : (r: (ShadowState, seq<Action>))
    ensures s.Slot(side).Some? ==> r == (s, [])
    ensures s.Slot(side).None? ==> r.1 == [Quote(cfg, side, lastPrice, pin)]
    ensures s.Slot(side).None? ==>
      r.0.Slot(side) ==
        (if LimitAccepted(pin.reply)
         then Some(Order(QuoteId(side, pin.token), side, Target(side, lastPrice, cfg.orderDistanceBps), cfg.orderSizeBtc))
         else None)
    ensures r.0.Slot(Opposite(side)) == s.Slot(Opposite(side))
    ensures r.0.position == s.position && r.0.lastPrice == s.lastPrice
    ensures r.0.lastForceFlatCheck == s.lastForceFlatCheck
    ensures s.Valid() ==> r.0.Valid()
  {
    if s.Slot(side).Some? then (s, [])
    else
      var (placed, sent) := PlaceOrder(cfg, s, side, Target(side, lastPrice, cfg.orderDistanceBps), pin);
      (placed, [sent])
  }

  /**
   * `_place_missing_orders`: quote each side that has no shadow order, at
   * the configured distance from the last price (buy first, then sell).
   * A side that already has an order is left alone.
   */
  function PlaceMissing(cfg: Config, s: ShadowState, place: PerSide<PlaceInput>): (r: (ShadowState, seq<Action>))
    ensures s.lastPrice.None? ==> r == (s, [])
    ensures s.lastPrice.Some? ==>
      r.1 == (if s.buy.None? then [Quote(cfg, Buy, s.lastPrice.value, place.buy)] else []) +
             (if s.sell.None? then [Quote(cfg, Sell, s.lastPrice.value, place.sell)] else [])
    ensures r.0.position == s.position && r.0.lastPrice == s.lastPrice
    ensures r.0.lastForceFlatCheck == s.lastForceFlatCheck
    ensures s.Valid() ==> r.0.Valid()
    ensures forall side: Side :: s.Slot(side).Some? ==> r.0.Slot(side) == s.Slot(side)
    ensures forall side: Side :: s.Slot(side).None? && s.lastPrice.Some? ==>
      r.0.Slot(side) ==
        (if LimitAccepted(place.Get(side).reply)
         then Some(Order(QuoteId(side, place.Get(side).token), side,
                         Target(side, s.lastPrice.value, cfg.orderDistanceBps), cfg.orderSizeBtc))
         else None)
  {
    match s.lastPrice
    case None => (s, [])
    case Some(p) =>
      var (afterBuy, buyActs) := PlaceIfMissing(cfg, s, Buy, p, place.buy);
      var (afterSell, sellActs) := PlaceIfMissing(cfg, afterBuy, Sell, p, place.sell);
      (afterSell, buyActs + sellActs)
  }

  /**
   * Every quote is a limit order of the configured size on whole ticks, and
   * its price is at least the configured distance from the last price.
   */
  lemma QuoteKeepsDistance(cfg: Config, side: Side, lastPrice: real, pin: PlaceInput)
    ensures var q := Quote(cfg, side, lastPrice, pin);
      && q.NewLimitOrder? && q.side == side && q.qty == cfg.orderSizeBtc
      && WholeTicks(q.price, TickSize(cfg.symbol))
      && (side == Buy ==> lastPrice - q.price >= lastPrice * cfg.orderDistanceBps as real / 10000.0)
      && (side == Sell ==> q.price - lastPrice >= lastPrice * cfg.orderDistanceBps as real / 10000.0)
  {
    QuoteDistanceKept(side, lastPrice, cfg.orderDistanceBps, TickSize(cfg.symbol));
  }

  // ---------------------------------------------------------------------
  // The tick
  // ---------------------------------------------------------------------

  /** Everything the outside world supplies to one tick. */
  datatype TickInputs = TickInputs(
    now: real,
    flat: FlatInputs,
    reduce: ReduceInputs,
    flagged: PerSide<bool>,
    cancelRaised: PerSide<bool>,
    volatilityBps: real,
    place: PerSide<PlaceInput>)

  /** The stage that ended the tick. */
  datatype Stage = Flattened | NoPrice | Capped | Reduced | Cancelled | VolatilityHeld | Quoted

  datatype TickResult = TickResult(stage: Stage, state: ShadowState, actions: seq<Action>)

  /** Quoting is allowed: every guard after force-flat lets the tick through to placement. */
  predicate GuardsPass(cfg: Config, st: ShadowState, inp: TickInputs)
  {
    && st.lastPrice.Some?
    && Abs(st.position) < cfg.maxPositionBtc
    && !Reduce(cfg, st, inp.reduce).handled
    && !Flagged(st, inp.flagged, Buy) && !Flagged(st, inp.flagged, Sell)
    && inp.volatilityBps <= cfg.volatilityThresholdBps as real
  }

  /** Stages five to seven: stale-order cancellation, volatility gate, placement. */
  function AfterReduce(cfg: Config, st: ShadowState, inp: TickInputs): (r: TickResult)
    requires st.Valid() && st.lastPrice.Some?
    ensures r.state.Valid()
    ensures r.state.position == st.position && r.state.lastPrice == st.lastPrice
    ensures r.state.lastForceFlatCheck == st.lastForceFlatCheck
    ensures r.stage in {Cancelled, VolatilityHeld, Quoted}
    ensures r.stage == Cancelled <==> Flagged(st, inp.flagged, Buy) || Flagged(st, inp.flagged, Sell)
    ensures r.stage == VolatilityHeld <==>
      && !Flagged(st, inp.flagged, Buy) && !Flagged(st, inp.flagged, Sell)
      && inp.volatilityBps > cfg.volatilityThresholdBps as real
    ensures r.stage == VolatilityHeld ==> r.state == st && r.actions == []
    ensures r.stage == Cancelled ==>
      r.actions == (if Flagged(st, inp.flagged, Buy) then [CancelOrder(st.buy.value.clOrdId)] else []) +
                   (if Flagged(st, inp.flagged, Sell) then [CancelOrder(st.sell.value.clOrdId)] else [])
    ensures r.stage == Quoted ==>
      r.actions == (if st.buy.None? then [Quote(cfg, Buy, st.lastPrice.value, inp.place.buy)] else []) +
                   (if st.sell.None? then [Quote(cfg, Sell, st.lastPrice.value, inp.place.sell)] else [])
    ensures r.stage == Cancelled ==> forall side: Side ::
      r.state.Slot(side) == (if Flagged(st, inp.flagged, side) && !inp.cancelRaised.Get(side) then None else st.Slot(side))
    ensures r.stage == Quoted ==> forall side: Side :: st.Slot(side).Some? ==> r.state.Slot(side) == st.Slot(side)
    ensures r.stage == Quoted ==> forall side: Side :: st.Slot(side).None? ==>
      r.state.Slot(side) ==
        (if LimitAccepted(inp.place.Get(side).reply)
         then Some(Order(QuoteId(side, inp.place.Get(side).token), side,
                         Target(side, st.lastPrice.value, cfg.orderDistanceBps), cfg.orderSizeBtc))
         else None)
    ensures r.stage != Quoted ==> NoneMatch(r.actions, IsLimitOrder)
    ensures r.stage == Quoted ==> NoneMatch(r.actions, IsSingleCancel)
    ensures forall side: Side :: st.Slot(side).Some? && r.state.Slot(side).None? ==>
      && r.stage == Cancelled && inp.flagged.Get(side) && !inp.cancelRaised.Get(side)
      && CancelOrder(st.Slot(side).value.clOrdId) in r.actions
    ensures forall side: Side :: r.state.Slot(side).Some? && r.state.Slot(side) != st.Slot(side) ==>
      && r.stage == Quoted && st.Slot(side).None?
      && LimitAccepted(inp.place.Get(side).reply)
      && Quote(cfg, side, st.lastPrice.value, inp.place.Get(side)) in r.actions
      && r.state.Slot(side) == Some(Order(QuoteId(side, inp.place.Get(side).token), side,
                                          Target(side, st.lastPrice.value, cfg.orderDistanceBps), cfg.orderSizeBtc))
  {
    var cancelled := CancelStale(st, inp.flagged, inp.cancelRaised);
    if cancelled.handled then TickResult(Cancelled, cancelled.state, cancelled.actions)
    else if inp.volatilityBps > cfg.volatilityThresholdBps as real then TickResult(VolatilityHeld, st, [])
    else
      var (placed, placeActs) := PlaceMissing(cfg, st, inp.place);
      TickResult(Quoted, placed, placeActs)
  }

  /** Stages four to seven: profit-taking, then the rest only if no reduction was accepted. */
  function AfterCap(cfg: Config, st: ShadowState, inp: TickInputs): (r: TickResult)
    requires st.Valid() && st.lastPrice.Some?
    ensures r.state.Valid()
    ensures r.state.position == st.position && r.state.lastPrice == st.lastPrice
    ensures r.state.lastForceFlatCheck == st.lastForceFlatCheck
    ensures r.stage in {Reduced, Cancelled, VolatilityHeld, Quoted}
    ensures r.stage == Reduced <==> Reduce(cfg, st, inp.reduce).handled
    ensures r.stage == Reduced ==> r.state == st && r.actions == Reduce(cfg, st, inp.reduce).actions
    ensures r.stage != Reduced ==>
      && r.state == AfterReduce(cfg, st, inp).state
      && r.actions == Reduce(cfg, st, inp.reduce).actions + AfterReduce(cfg, st, inp).actions
    ensures r.stage == Cancelled <==>
      !Reduce(cfg, st, inp.reduce).handled && (Flagged(st, inp.flagged, Buy) || Flagged(st, inp.flagged, Sell))
    ensures r.stage == VolatilityHeld <==>
      && !Reduce(cfg, st, inp.reduce).handled
      && !Flagged(st, inp.flagged, Buy) && !Flagged(st, inp.flagged, Sell)
      && inp.volatilityBps > cfg.volatilityThresholdBps as real
    ensures r.stage != Quoted ==> NoneMatch(r.actions, IsLimitOrder)
    ensures r.stage == Quoted ==> NoneMatch(r.actions, IsSingleCancel)
    ensures r.stage == Quoted ==>
      && !Reduce(cfg, st, inp.reduce).handled
      && !Flagged(st, inp.flagged, Buy) && !Flagged(st, inp.flagged, Sell)
      && inp.volatilityBps <= cfg.volatilityThresholdBps as real
    ensures forall side: Side :: st.Slot(side).Some? && r.state.Slot(side).None? ==>
      && r.stage == Cancelled && inp.flagged.Get(side) && !inp.cancelRaised.Get(side)
      && CancelOrder(st.Slot(side).value.clOrdId) in r.actions
    ensures forall side: Side :: r.state.Slot(side).Some? && r.state.Slot(side) != st.Slot(side) ==>
      && r.stage == Quoted && st.Slot(side).None?
      && LimitAccepted(inp.place.Get(side).reply)
      && Quote(cfg, side, st.lastPrice.value, inp.place.Get(side)) in r.actions
      && r.state.Slot(side) == Some(Order(QuoteId(side, inp.place.Get(side).token), side,
                                          Target(side, st.lastPrice.value, cfg.orderDistanceBps), cfg.orderSizeBtc))
  {
    var reduced := Reduce(cfg, st, inp.reduce);
    if reduced.handled then TickResult(Reduced, st, reduced.actions)
    else
      var rest := AfterReduce(cfg, st, inp);
      NoneMatchConcat(reduced.actions, rest.actions, IsLimitOrder);
      NoneMatchConcat(reduced.actions, rest.actions, IsSingleCancel);
      TickResult(rest.stage, rest.state, reduced.actions + rest.actions)
  }

  /**
   * Stages two to seven, on the shadow force-flat left behind: price gate,
   * hard cap, then profit-taking, stale-order cancellation, volatility gate
   * and placement.
   */
  function AfterFlat(cfg: Config, st: ShadowState, inp: TickInputs): (r: TickResult)
    requires st.Valid()
    ensures r.state.Valid()
    ensures r.state.position == st.position && r.state.lastPrice == st.lastPrice
    ensures r.state.lastForceFlatCheck == st.lastForceFlatCheck
    ensures r.stage != Flattened
    ensures r.stage == NoPrice <==> st.lastPrice.None?
    ensures r.stage == Capped <==> st.lastPrice.Some? && Abs(st.position) >= cfg.maxPositionBtc
    ensures r.stage in {NoPrice, Capped} ==> r.state == st && r.actions == []
    ensures r.stage == Quoted ==> GuardsPass(cfg, st, inp)
    ensures st.lastPrice.Some? && Abs(st.position) < cfg.maxPositionBtc ==>
      var red := Reduce(cfg, st, inp.reduce);
      && (r.stage == Reduced <==> red.handled)
      && (r.stage == Reduced ==> r.state == st && r.actions == red.actions)
      && (r.stage != Reduced ==>
            r.state == AfterReduce(cfg, st, inp).state
            && r.actions == red.actions + AfterReduce(cfg, st, inp).actions)
      && (r.stage == Cancelled <==>
            !red.handled && (Flagged(st, inp.flagged, Buy) || Flagged(st, inp.flagged, Sell)))
      && (r.stage == VolatilityHeld <==>
            && !red.handled
            && !Flagged(st, inp.flagged, Buy) && !Flagged(st, inp.flagged, Sell)
            && inp.volatilityBps > cfg.volatilityThresholdBps as real)
    ensures r.stage != Quoted ==> NoneMatch(r.actions, IsLimitOrder)
    ensures r.stage == Quoted ==> NoneMatch(r.actions, IsSingleCancel)
  {
    if st.lastPrice.None? then TickResult(NoPrice, st, [])
    else if Abs(st.position) >= cfg.maxPositionBtc then TickResult(Capped, st, [])
    else AfterCap(cfg, st, inp)
  }

  /**
   * `_tick`: force-flat, price gate, hard cap, profit-taking, stale-order
   * cancellation, volatility gate and quote placement, in that order; the
   * first stage that acts ends the tick.
   */
  function Tick(cfg: Config, s: ShadowState, inp: TickInputs): (r: TickResult)
    requires s.Valid()
    ensures r.state.Valid()
    ensures r.state.lastPrice == s.lastPrice
    ensures var f := ForceFlat(cfg, s, inp.now, inp.flat);
      && |f.actions| <= |r.actions| && r.actions[..|f.actions|] == f.actions
      && r.state.position == f.state.position
      && r.state.lastForceFlatCheck == f.state.lastForceFlatCheck
      && (r.stage == Flattened <==> f.handled)
      && (r.stage == NoPrice <==> !f.handled && s.lastPrice.None?)
      && (r.stage == Capped <==> !f.handled && s.lastPrice.Some? && Abs(f.state.position) >= cfg.maxPositionBtc)
      && (r.stage in {Flattened, NoPrice, Capped} ==> r.state == f.state && r.actions == f.actions)
      && (r.stage == Quoted ==> GuardsPass(cfg, f.state, inp))
    ensures var f := ForceFlat(cfg, s, inp.now, inp.flat);
      !f.handled && s.lastPrice.Some? && Abs(f.state.position) < cfg.maxPositionBtc ==>
        var red := Reduce(cfg, f.state, inp.reduce);
        && (r.stage == Reduced <==> red.handled)
        && (r.stage == Reduced ==> r.state == f.state && r.actions == f.actions + red.actions)
        && (r.stage != Reduced ==>
              r.state == AfterReduce(cfg, f.state, inp).state
              && r.actions == f.actions + (red.actions + AfterReduce(cfg, f.state, inp).actions))
        && (r.stage == Cancelled <==>
              !red.handled && (Flagged(f.state, inp.flagged, Buy) || Flagged(f.state, inp.flagged, Sell)))
        && (r.stage == VolatilityHeld <==>
              && !red.handled
              && !Flagged(f.state, inp.flagged, Buy) && !Flagged(f.state, inp.flagged, Sell)
              && inp.volatilityBps > cfg.volatilityThresholdBps as real)
    ensures r.stage != Quoted ==> NoneMatch(r.actions, IsLimitOrder)
    ensures r.stage == Quoted ==> NoneMatch(r.actions, IsSingleCancel)
  {
    var flat := ForceFlat(cfg, s, inp.now, inp.flat);
    if flat.handled then TickResult(Flattened, flat.state, flat.actions)
    else
      var rest := AfterFlat(cfg, flat.state, inp);
      NoneMatchConcat(flat.actions, rest.actions, IsLimitOrder);
      NoneMatchConcat(flat.actions, rest.actions, IsSingleCancel);
      assert flat.actions + [] == flat.actions;
      TickResult(rest.stage, rest.state, flat.actions + rest.actions)
  }

  /** Every guard passing is also enough: the tick then reaches placement. */
  lemma TickQuotesWhenGuardsPass(cfg: Config, s: ShadowState, inp: TickInputs)
    requires s.Valid()
    requires !ForceFlat(cfg, s, inp.now, inp.flat).handled
    requires GuardsPass(cfg, ForceFlat(cfg, s, inp.now, inp.flat).state, inp)
    ensures Tick(cfg, s, inp).stage == Quoted
  {
  }

  /**
   * A shadow order disappears only on a confirmed cancel: either the
   * force-flat cancel-all went through, or the order was flagged stale and
   * its own cancel call did not raise.
   */
  lemma TickClearsOnlyOnConfirmedCancel(cfg: Config, s: ShadowState, inp: TickInputs, side: Side)
    requires s.Valid()
    requires s.Slot(side).Some? && Tick(cfg, s, inp).state.Slot(side).None?
    ensures var r := Tick(cfg, s, inp);
      || FlatClears(cfg, s, inp.now, inp.flat)
      || (&& r.stage == Cancelled && inp.flagged.Get(side) && !inp.cancelRaised.Get(side)
          && CancelOrder(s.Slot(side).value.clOrdId) in r.actions)
  {
    var f := ForceFlat(cfg, s, inp.now, inp.flat);
    if !FlatClears(cfg, s, inp.now, inp.flat) {
      assert f.state.Slot(side) == s.Slot(side);
      assert !f.handled && f.state.lastPrice.Some? && Abs(f.state.position) < cfg.maxPositionBtc;
      var rest := AfterCap(cfg, f.state, inp);
      assert Tick(cfg, s, inp) == TickResult(rest.stage, rest.state, f.actions + rest.actions);
      assert CancelOrder(s.Slot(side).value.clOrdId) in rest.actions;
    }
  }

  /**
   * A shadow order appears only when its placement was accepted with
   * `code == 0`, and it records the quote's id, the configured size and the
   * target price before tick alignment.
   */
  lemma TickSetsOnlyOnAcceptance(cfg: Config, s: ShadowState, inp: TickInputs, side: Side)
    requires s.Valid()
    requires Tick(cfg, s, inp).state.Slot(side).Some? && Tick(cfg, s, inp).state.Slot(side) != s.Slot(side)
    ensures var r := Tick(cfg, s, inp);
      && r.stage == Quoted
      && LimitAccepted(inp.place.Get(side).reply)
      && Quote(cfg, side, s.lastPrice.value, inp.place.Get(side)) in r.actions
      && r.state.Slot(side) == Some(Order(QuoteId(side, inp.place.Get(side).token), side,
                                          Target(side, s.lastPrice.value, cfg.orderDistanceBps), cfg.orderSizeBtc))
  {
    var f := ForceFlat(cfg, s, inp.now, inp.flat);
    assert f.state.Slot(side) == s.Slot(side) || f.state.Slot(side).None?;
    assert !f.handled && f.state.lastPrice.Some? && Abs(f.state.position) < cfg.maxPositionBtc;
    var rest := AfterCap(cfg, f.state, inp);
    assert Tick(cfg, s, inp) == TickResult(rest.stage, rest.state, f.actions + rest.actions);
    assert Quote(cfg, side, s.lastPrice.value, inp.place.Get(side)) in rest.actions;
  }

  /** The configuration of the worked example below. */
  function ExampleConfig(wallet: WalletConfig): Config
  {
    Config(wallet, "BTC-USD", 10, 5, 20, 0.1, 1.0, 60, 5, 0)
  }

  /**
   * A worked tick: BTC quoted 10 bps away, maximum position 1.0, order size
   * 0.1, force-flat off, last price 50010, nothing flagged, low volatility.
   * The tick reaches placement and sends both quotes.
   */
  lemma ExampleTickQuotes(wallet: WalletConfig, inp: TickInputs)
    requires inp.flagged == PerSide(false, false) && inp.volatilityBps <= 5.0
    ensures var r := Tick(ExampleConfig(wallet), OnPriceUpdate(Empty, 50010.0), inp);
      && r.stage == Quoted
      && r.actions == [Quote(ExampleConfig(wallet), Buy, 50010.0, inp.place.buy),
                       Quote(ExampleConfig(wallet), Sell, 50010.0, inp.place.sell)]
  {
    var cfg := ExampleConfig(wallet);
    var s := OnPriceUpdate(Empty, 50010.0);
    assert ForceFlat(cfg, s, inp.now, inp.flat) == StageResult(false, s, []);
    assert Reduce(cfg, s, inp.reduce) == StageResult(false, s, []);
    assert CancelStale(s, inp.flagged, inp.cancelRaised) == StageResult(false, s, []);
  }

  /** In the worked tick the quotes go out on whole cents: 49959.99 to buy and 50060.01 to sell. */
  lemma ExampleQuotePrices(wallet: WalletConfig, pin: PlaceInput)
    ensures Quote(ExampleConfig(wallet), Buy, 50010.0, pin).price == 49959.99
    ensures Quote(ExampleConfig(wallet), Sell, 50010.0, pin).price == 50060.01
  {
    var cfg := ExampleConfig(wallet);
    assert cfg.symbol[..3] == "BTC";
    assert TickSize(cfg.symbol) == 0.01;
    assert Target(Buy, 50010.0, 10) == 49959.99;
    assert Target(Sell, 50010.0, 10) == 50060.01;
    TickStep(4995999, 0.01);
    TickStep(5006001, 0.01);
  }
}

=== FILE: monitor.dfy ===
/**
 * The account monitor's pure pieces (monitor.py): the two latched alerts,
 * the twelve-hour uptime bar and the display name derived from a config
 * path.
 */
module Monitor {
  import opened Shadow

  // ---------------------------------------------------------------------
  // Latched alerts
  // ---------------------------------------------------------------------

  /** A 10% equity drop raises the alert... */
  const EquityDropThreshold: real := 0.10
  /** ...which is re-armed only once the drop is back under 80% of that. */
  const EquityResetFactor: real := 0.8
  /** The position alert fires beyond this many order sizes. */
  const PositionAlertMultiplier: real := 5.0
  /** ...and is re-armed once the position is back under this fraction of the threshold. */
  const PositionResetFactor: real := 0.5

  /** The alert flag after one poll, and whether that poll sent a notification. */
  datatype AlertStep = AlertStep(alerted: bool, notified: bool)

  /**
   * The shape shared by both alerts: fire when the trigger holds and the
   * flag is clear, setting the flag; then clear the flag when the re-arm
   * condition holds.
   */
  function Latch(alerted: bool, trigger: bool, rearm: bool): (r: AlertStep)
    ensures r.notified <==> trigger && !alerted
    ensures rearm ==> !r.alerted
    ensures !rearm ==> (r.alerted <==> alerted || trigger)
  {
    var fired := trigger && !alerted;
    var latched := alerted || fired;
    AlertStep(if rearm then false else latched, fired)
  }

  /** The fraction of the initial equity that has been lost. */
  function DropRatio(initialEquity: real, currentEquity: real): real
    requires initialEquity > 0.0
  {
    (initialEquity - currentEquity) / initialEquity
  }

  /**
   * `check_equity_alert`. Nothing happens without a positive initial
   * equity. Otherwise the flag is set from a 10% drop on, cleared below an
   * 8% drop, and kept as it was in between; a notification goes out only
   * when the flag goes from clear to set.
   */
  function CheckEquityAlert(initialEquity: real, currentEquity: real, alerted: bool): (r: AlertStep)
    ensures initialEquity <= 0.0 ==> r == AlertStep(alerted, false)
    ensures initialEquity > 0.0 ==>
      var drop := DropRatio(initialEquity, currentEquity);
      && (r.notified <==> drop >= EquityDropThreshold && !alerted)
      && (drop >= EquityDropThreshold ==> r.alerted)
      && (drop < EquityDropThreshold * EquityResetFactor ==> !r.alerted)
      && (EquityDropThreshold * EquityResetFactor <= drop < EquityDropThreshold ==> r.alerted == alerted)
    ensures r.notified ==> r.alerted && !alerted
  {
    if initialEquity <= 0.0 then AlertStep(alerted, false)
    else
      var drop := DropRatio(initialEquity, currentEquity);
      Latch(alerted, drop >= EquityDropThreshold, drop < EquityDropThreshold * EquityResetFactor)
  }

  /** `order_size * 5`: the position size that raises the alert. */
  function PositionThreshold(orderSize: real): real
  {
    orderSize * PositionAlertMultiplier
  }

  /**
   * `check_position_alert`. The flag is set once |position| exceeds five
   * order sizes, cleared once it is under half of that, and kept in
   * between; a notification goes out only when the flag goes from clear to
   * set.
   */
  function CheckPositionAlert(orderSize: real, position: real, alerted: bool): (r: AlertStep)
    ensures var t := PositionThreshold(orderSize);
      && (r.notified <==> Abs(position) > t && !alerted)
      && (Abs(position) > t ==> r.alerted)
      && (Abs(position) < t * PositionResetFactor ==> !r.alerted)
      && (t * PositionResetFactor <= Abs(position) <= t ==> r.alerted == alerted)
    ensures r.notified ==> r.alerted && !alerted
  {
    var threshold := PositionThreshold(orderSize);
    Latch(alerted, Abs(position) > threshold, Abs(position) < threshold * PositionResetFactor)
  }

  /** The flag after a run of equity polls, and how many notifications the run sent. */
  function EquityRun(initialEquity: real, polls: seq<real>, alerted: bool): (bool, nat)
  {
    if |polls| == 0 then (alerted, 0)
    else
      var step := CheckEquityAlert(initialEquity, polls[0], alerted);
      var (final, count) := EquityRun(initialEquity, polls[1..], step.alerted);
      (final, count + if step.notified then 1 else 0)
  }

  /**
   * While the drop never falls under the re-arm level, the equity alert
   * notifies at most once, and not at all if it was already latched.
   */
  lemma {:induction false} EquityAlertNotifiesOnce(initialEquity: real, polls: seq<real>, alerted: bool)
    requires initialEquity > 0.0
    requires forall i :: 0 <= i < |polls| ==> DropRatio(initialEquity, polls[i]) >= EquityDropThreshold * EquityResetFactor
    ensures EquityRun(initialEquity, polls, alerted).1 <= 1
    ensures alerted ==> EquityRun(initialEquity, polls, alerted).1 == 0 && EquityRun(initialEquity, polls, alerted).0
  {
    if |polls| > 0 {
      var step := CheckEquityAlert(initialEquity, polls[0], alerted);
      assert forall i :: 0 <= i < |polls[1..]| ==> polls[1..][i] == polls[i + 1];
      EquityAlertNotifiesOnce(initialEquity, polls[1..], step.alerted);
      if !step.notified {
        assert step.alerted == alerted;
      }
    }
  }

  /** The flag after a run of position polls, and how many notifications the run sent. */
  function PositionRun(orderSize: real, polls: seq<real>, alerted: bool): (bool, nat)
  {
    if |polls| == 0 then (alerted, 0)
    else
      var step := CheckPositionAlert(orderSize, polls[0], alerted);
      var (final, count) := PositionRun(orderSize, polls[1..], step.alerted);
      (final, count + if step.notified then 1 else 0)
  }

  /**
   * While |position| never falls under half the threshold, the position
   * alert notifies at most once, and not at all if it was already latched.
   */
  lemma {:induction false} PositionAlertNotifiesOnce(orderSize: real, polls: seq<real>, alerted: bool)
    requires forall i :: 0 <= i < |polls| ==> Abs(polls[i]) >= PositionThreshold(orderSize) * PositionResetFactor
    ensures PositionRun(orderSize, polls, alerted).1 <= 1
    ensures alerted ==> PositionRun(orderSize, polls, alerted).1 == 0 && PositionRun(orderSize, polls, alerted).0
  {
    if |polls| > 0 {
      var step := CheckPositionAlert(orderSize, polls[0], alerted);
      assert forall i :: 0 <= i < |polls[1..]| ==> polls[1..][i] == polls[i + 1];
      PositionAlertNotifiesOnce(orderSize, polls[1..], step.alerted);
      if !step.notified {
        assert step.alerted == alerted;
      }
    }
  }

  // ---------------------------------------------------------------------
  // Uptime bar
  // ---------------------------------------------------------------------

  /** U+2588 FULL BLOCK: the maker was up during that hour. */
  const Up: char := '\U{2588}'
  /** U+2591 LIGHT SHADE: no uptime data for that hour. */
  const Down: char := '\U{2591}'
  const BarSlots: nat := 12

  /**
   * One entry of the uptime reply, classified by what its `hour` timestamp
   * does once truncated to the hour: `Hour(h)` when it lands on a whole UTC
   * hour (h counted from the epoch), `Unparseable` when it cannot match any
   * slot of the bar. Besides timestamps that do not parse, that covers
   * naive timestamps without an offset (never equal to the aware slot
   * hours) and offsets that are not whole hours (truncation lands off the
   * UTC hour). An entry that is not a mapping at all is not representable:
   * the source fails on it outside its `try`.
   */
  datatype HourEntry = Hour(utcHour: int) | Unparseable

  /** The hours with uptime data; unparseable entries are skipped. */
  function UptimeHours(entries: seq<HourEntry>): (hours: set<int>)
    ensures forall h :: h in hours <==> exists j :: 0 <= j < |entries| && entries[j] == Hour(h)
  {
    if |entries| == 0 then {}
    else
      var rest := UptimeHours(entries[..|entries| - 1]);
      match entries[|entries| - 1]
      case Hour(h) => rest + {h}
      case Unparseable => rest
  }

  /** An unparseable entry anywhere in the reply changes nothing. */
  lemma UnparseableIgnored(before: seq<HourEntry>, after: seq<HourEntry>)
    ensures UptimeHours(before + [Unparseable] + after) == UptimeHours(before + after)
  {
    var withBad := before + [Unparseable] + after;
    var without := before + after;
    forall h | h in UptimeHours(withBad) ensures h in UptimeHours(without) {
      var j :| 0 <= j < |withBad| && withBad[j] == Hour(h);
      if j < |before| { assert without[j] == Hour(h); }
      else { assert without[j - 1] == Hour(h); }
    }
    forall h | h in UptimeHours(without) ensures h in UptimeHours(withBad) {
      var j :| 0 <= j < |without| && without[j] == Hour(h);
      if j < |before| { assert withBad[j] == Hour(h); }
      else { assert withBad[j + 1] == Hour(h); }
    }
  }

  /**
   * `build_uptime_bar`: twelve slots from eleven hours ago (left) to the
   * current hour (right), each up exactly when that hour has data.
   */
  method BuildUptimeBar(entries: seq<HourEntry>, currentHour: int) returns (bar: string)
    ensures |bar| == BarSlots
    ensures forall k :: 0 <= k < |bar| ==> bar[k] == Up || bar[k] == Down
    ensures forall k :: 0 <= k < |bar| ==>
      (bar[k] == Up <==> exists j :: 0 <= j < |entries| && entries[j] == Hour(currentHour - (11 - k)))
  {
    var hours := UptimeHours(entries);
    bar := "";
    var i := 11;
    while i >= 0
      invariant -1 <= i <= 11
      invariant |bar| == 11 - i
      invariant forall k :: 0 <= k < |bar| ==> (bar[k] == Up <==> currentHour - (11 - k) in hours)
      invariant forall k :: 0 <= k < |bar| ==> bar[k] == Up || bar[k] == Down
    {
      var hour := currentHour - i;
      if hour in hours {
        bar := bar + [Up];
      } else {
        bar := bar + [Down];
      }
      i := i - 1;
    }
  }

  // ---------------------------------------------------------------------
  // Account display name
  // ---------------------------------------------------------------------

  /** Python's `str.replace`: every non-overlapping occurrence, scanning left to right. */
  function ReplaceAll(s: string, pat: string, rep: string): (r: string)
    requires |pat| > 0
    ensures |rep| <= |pat| ==> |r| <= |s|
    ensures rep == pat ==> r == s
    ensures NoOccurrence(s, pat) ==> r == s
    decreases |s|
  {
    if |s| < |pat| then s
    else if s[..|pat|] == pat then
      assert OccursAt(s, pat, 0);
      rep + ReplaceAll(s[|pat|..], pat, rep)
    else
      assert NoOccurrence(s, pat) ==> NoOccurrence(s[1..], pat) by {
        if NoOccurrence(s, pat) {
          forall i | 0 <= i <= |s[1..]| - |pat| ensures !OccursAt(s[1..], pat, i) {
            assert !OccursAt(s, pat, i + 1);
            assert s[1..][i..i + |pat|] == s[i + 1..i + 1 + |pat|];
          }
        }
      }
      [s[0]] + ReplaceAll(s[1..], pat, rep)
  }

  /** `pat` occurs in `s` starting at index `i`. */
  predicate OccursAt(s: string, pat: string, i: int)
  {
    0 <= i && i + |pat| <= |s| && s[i..i + |pat|] == pat
  }

  /** `pat` occurs nowhere in `s`. */
  predicate NoOccurrence(s: string, pat: string)
  {
    forall i :: 0 <= i <= |s| - |pat| ==> !OccursAt(s, pat, i)
  }

  /** A prefix that holds no first character of the pattern is copied as is. */
  lemma {:induction false} ReplaceAllSkipsPrefix(a: string, b: string, pat: string, rep: string)
    requires |pat| > 0 && pat[0] !in a
    ensures ReplaceAll(a + b, pat, rep) == a + ReplaceAll(b, pat, rep)
    decreases |a|
  {
    if |a| > 0 {
      var s := a + b;
      assert s[1..] == a[1..] + b;
      if |s| >= |pat| {
        assert s[..|pat|][0] == a[0];
      }
      ReplaceAllSkipsPrefix(a[1..], b, pat, rep);
    } else {
      assert a + b == b;
    }
  }

  /** A leading occurrence of the pattern is replaced. */
  lemma ReplaceAllAtPattern(b: string, pat: string, rep: string)
    requires |pat| > 0
    ensures ReplaceAll(pat + b, pat, rep) == rep + ReplaceAll(b, pat, rep)
  {
    var s := pat + b;
    assert s[..|pat|] == pat;
    assert s[|pat|..] == b;
  }

  /** The account's display name (monitor.py uses the same rewrite in three places). */
  function AccountName(configPath: string): string
  {
    ReplaceAll(ReplaceAll(ReplaceAll(configPath, ".yaml", ""), "config-", ""), "config", "main")
  }

  /** A string that is exactly the pattern becomes the replacement. */
  lemma ReplaceAllWhole(pat: string, rep: string)
    requires |pat| > 0
    ensures ReplaceAll(pat, pat, rep) == rep
  {
    ReplaceAllAtPattern("", pat, rep);
    assert pat + "" == pat;
  }

  /** The default config file names the main account. */
  lemma AccountNameOfDefault()
    ensures AccountName("config.yaml") == "main"
  {
    var stem := "config";
    ReplaceAllSkipsPrefix(stem, ".yaml", ".yaml", "");
    ReplaceAllWhole(".yaml", "");
    assert stem + ".yaml" == "config.yaml";
    assert stem + "" == stem;
    ReplaceAllWhole(stem, "main");
  }

  /**
   * `config-<name>.yaml` names account `<name>`, for any name without a
   * '.' or a 'c' (which could start another rewrite).
   */
  lemma AccountNameOfNamed(name: string)
    requires '.' !in name && 'c' !in name
    ensures AccountName("config-" + name + ".yaml") == name
  {
    var stem := "config-" + name;
    ReplaceAllSkipsPrefix(stem, ".yaml", ".yaml", "");
    ReplaceAllAtPattern("", ".yaml", "");
    assert ReplaceAll(stem + ".yaml", ".yaml", "") == stem;
    ReplaceAllAtPattern(name, "config-", "");
    ReplaceAllSkipsPrefix(name, "", "config-", "");
    assert name + "" == name;
    assert ReplaceAll(stem, "config-", "") == name;
    ReplaceAllSkipsPrefix(name, "", "config", "main");
  }
}

=== FILE: pricing.dfy ===
/**
 * Quote prices and their alignment to the instrument's tick
 * (core/maker.py `_place_missing_orders` and `_place_order`).
 */
module Pricing {
  import opened Shadow

  /** Python's `math.ceil`. */
  function Ceil(x: real): (k: int)
    ensures k as real >= x && (k as real) - x < 1.0
  {
    -((-x).Floor)
  }

  /** BTC-family symbols quote in cents, every other symbol in dimes. */
  function TickSize(symbol: string): (t: real)
    ensures t > 0.0
    ensures |symbol| >= 3 && symbol[..3] == "BTC" ==> t == 0.01
    ensures !(|symbol| >= 3 && symbol[..3] == "BTC") ==> t == 0.1
  {
    if |symbol| >= 3 && symbol[..3] == "BTC" then 0.01 else 0.1
  }

  /** Buy quotes sit `bps` basis points below the reference price. */
  function BuyTarget(lastPrice: real, bps: int): real
  {
    lastPrice * (1.0 - bps as real / 10000.0)
  }

  /** Sell quotes sit `bps` basis points above the reference price. */
  function SellTarget(lastPrice: real, bps: int): real
  {
    lastPrice * (1.0 + bps as real / 10000.0)
  }

  /** The target price of a side. */
  function Target(side: Side, lastPrice: real, bps: int): real
  {
    if side == Buy then BuyTarget(lastPrice, bps) else SellTarget(lastPrice, bps)
  }

  /** Floor division of `price` by `tick`, as an integer count of ticks. */
  function FloorTicks(price: real, tick: real): (k: int)
    requires tick > 0.0
    ensures k as real * tick <= price
    ensures price - k as real * tick < tick
  {
    var q := price / tick;
    var j := q.Floor;
    assert j as real <= q < (j + 1) as real;
    DivMul(price, tick);
    MulMonotone(j as real, q, tick);
    MulStrict(q, (j + 1) as real, tick);
    TickStep(j, tick);
    assert price < (j + 1) as real * tick;
    j
  }

  /** Ceiling division of `price` by `tick`, as an integer count of ticks. */
  function CeilTicks(price: real, tick: real): (k: int)
    requires tick > 0.0
    ensures price <= k as real * tick
    ensures k as real * tick - price < tick
  {
    var q := price / tick;
    var j := Ceil(q);
    assert (j - 1) as real < q <= j as real;
    DivMul(price, tick);
    MulMonotone(q, j as real, tick);
    MulStrict((j - 1) as real, q, tick);
    TickStep(j - 1, tick);
    assert (j - 1) as real * tick < price;
    assert j as real * tick == (j - 1) as real * tick + tick;
    j
  }

  lemma DivMul(x: real, t: real)
    requires t > 0.0
    ensures (x / t) * t == x
  {
  }

  lemma MulMonotone(a: real, b: real, t: real)
    requires a <= b && t > 0.0
    ensures a * t <= b * t
  {
  }

  lemma MulStrict(a: real, b: real, t: real)
    requires a < b && t > 0.0
    ensures a * t < b * t
  {
  }

  /** Consecutive tick counts are one tick apart, and a tick count is whole. */
  lemma TickStep(k: int, tick: real)
    requires tick > 0.0
    ensures (k + 1) as real * tick == k as real * tick + tick
    ensures WholeTicks(k as real * tick, tick)
  {
    assert (k as real * tick) / tick == k as real;
  }

  /** `x` is a whole number of ticks. */
  predicate WholeTicks(x: real, tick: real)
    requires tick > 0.0
  {
    (x / tick).Floor as real == x / tick
  }

  /**
   * The price actually sent: buys are floored and sells ceiled to the tick,
   * so the aligned price is a whole number of ticks, never on the near side
   * of the target, and less than one tick away from it.
   */
  function AlignedPrice(side: Side, price: real, tick: real): (aligned: real)
    requires tick > 0.0
    ensures WholeTicks(aligned, tick)
    ensures side == Buy ==> aligned <= price && price - aligned < tick
    ensures side == Sell ==> aligned >= price && aligned - price < tick
  {
    var k := if side == Buy then FloorTicks(price, tick) else CeilTicks(price, tick);
    TickStep(k, tick);
    k as real * tick
  }

  /**
   * Alignment never pulls a quote towards the reference price: the distance
   * actually quoted is at least the configured distance on both sides.
   */
  lemma QuoteDistanceKept(side: Side, lastPrice: real, bps: int, tick: real)
    requires tick > 0.0
    ensures side == Buy ==>
      lastPrice - AlignedPrice(side, Target(side, lastPrice, bps), tick) >= lastPrice * bps as real / 10000.0
    ensures side == Sell ==>
      AlignedPrice(side, Target(side, lastPrice, bps), tick) - lastPrice >= lastPrice * bps as real / 10000.0
  {
  }
}

=== FILE: risk.dfy ===
/**
 * The two position-risk stages of a tick that send market orders
 * (core/maker.py `_force_flat_if_position` and `_check_and_reduce_position`).
 */
module Risk {
  import opened Wrappers
  import opened Shadow
  import opened Exchange
  import opened Configuration

  /** What a stage did: whether it ends the tick, the new shadow, and the calls it made. */
  datatype StageResult = StageResult(handled: bool, state: ShadowState, actions: seq<Action>)

  /** Profit-taking starts above this fraction of the maximum position... */
  const ReduceThresholdFraction: real := 0.7
  /** ...and brings the position back to this fraction. */
  const ReduceTargetFraction: real := 0.5

  /** The position after a market order of `qty` on `side` fills completely. */
  function Filled(position: real, side: Side, qty: real): real
  {
    if side == Sell then position - qty else position + qty
  }

  /** The side that reduces a position: sell when long, buy otherwise. */
  function ClosingSide(position: real): (side: Side)
    ensures position > 0.0 <==> side == Sell
  {
    if position > 0.0 then Sell else Buy
  }

  /** The signed quantity of the first reported position, 0 when none is reported. */
  function ReportedQty(ps: seq<PositionEntry>): real
  {
    if |ps| > 0 then ps[0].qty else 0.0
  }

  // ---------------------------------------------------------------------
  // Timed force-flat
  // ---------------------------------------------------------------------

  /** The exchange's answers to the calls force-flat may make. */
  datatype FlatInputs = FlatInputs(
    positions: Reply<seq<PositionEntry>>,
    openOrders: Reply<seq<ListedOrder>>,
    cancelRaised: bool,
    reply: OrderReply,
    token: string)

  /** `max(0, int(force_flat_check_sec))`; 0 switches force-flat off. */
  function FlatInterval(cfg: Config): (n: nat)
    ensures cfg.forceFlatCheckSec <= 0 ==> n == 0
    ensures cfg.forceFlatCheckSec > 0 ==> n == cfg.forceFlatCheckSec
  {
    if cfg.forceFlatCheckSec > 0 then cfg.forceFlatCheckSec else 0
  }

  /** Force-flat is enabled and its interval has elapsed since the last check. */
  predicate FlatDue(cfg: Config, s: ShadowState, now: real)
  {
    FlatInterval(cfg) != 0 && now - s.lastForceFlatCheck >= FlatInterval(cfg) as real
  }

  function ListedIds(os: seq<ListedOrder>): (ids: seq<string>)
    ensures |ids| == |os|
    ensures forall i :: 0 <= i < |os| ==> ids[i] == os[i].clOrdId
  {
    seq(|os|, i requires 0 <= i < |os| => os[i].clOrdId)
  }

  /** The cancel-all step completed without raising, so the shadow is cleared. */
  predicate FlatCancelConfirmed(inp: FlatInputs)
  {
    inp.openOrders.Success? && (|inp.openOrders.value| == 0 || !inp.cancelRaised)
  }

  /** Force-flat reaches its cancel-all step and that step is confirmed. */
  predicate FlatClears(cfg: Config, s: ShadowState, now: real, inp: FlatInputs)
  {
    && FlatDue(cfg, s, now) && inp.positions.Success?
    && ReportedQty(inp.positions.value) != 0.0 && FlatCancelConfirmed(inp)
  }

  /** Query the open orders, cancel them all, and clear the shadow unless a call raised. */
  function FlatCancelAll(s: ShadowState, inp: FlatInputs): (r: (ShadowState, seq<Action>))
    ensures FlatCancelConfirmed(inp) ==> r.0 == ClearAllOrders(s)
    ensures !FlatCancelConfirmed(inp) ==> r.0 == s
    ensures inp.openOrders.Failure? ==> r.1 == [QueryOpenOrders]
    ensures inp.openOrders.Success? ==>
      r.1 == [QueryOpenOrders] +
             (if |inp.openOrders.value| > 0 then [CancelOrders(ListedIds(inp.openOrders.value))] else [])
    ensures forall i :: 0 <= i < |r.1| ==>
      !r.1[i].NewMarketOrder? && !r.1[i].NewLimitOrder? && !r.1[i].CancelOrder?
  {
    match inp.openOrders
    case Failure(_) => (s, [QueryOpenOrders])
    case Success(os) =>
      var ids := ListedIds(os);
      if |ids| == 0 then (ClearAllOrders(s), [QueryOpenOrders])
      else if inp.cancelRaised then (s, [QueryOpenOrders, CancelOrders(ids)])
      else (ClearAllOrders(s), [QueryOpenOrders, CancelOrders(ids)])
  }

  /**
   * `_force_flat_if_position`. The check time is taken before the position
   * query, so it advances whatever happens next. A reported zero position
   * still overwrites the local one. Otherwise every open order is cancelled
   * and one reduce-only market order closes the whole position; the stage
   * ends the tick only if that order is accepted.
   */
  function ForceFlat(cfg: Config, s: ShadowState, now: real, inp: FlatInputs): (r: StageResult)
    ensures !FlatDue(cfg, s, now) ==> r == StageResult(false, s, [])
    ensures FlatDue(cfg, s, now) ==> r.state.lastForceFlatCheck == now
    ensures r.state.lastPrice == s.lastPrice
    ensures s.Valid() ==> r.state.Valid()
    ensures FlatDue(cfg, s, now) && inp.positions.Failure? ==>
      r == StageResult(false, s.(lastForceFlatCheck := now), [QueryPositions])
    ensures FlatDue(cfg, s, now) && inp.positions.Success? ==>
      r.state.position == ReportedQty(inp.positions.value)
    ensures FlatDue(cfg, s, now) && inp.positions.Success? && ReportedQty(inp.positions.value) == 0.0 ==>
      !r.handled && r.state.buy == s.buy && r.state.sell == s.sell && r.actions == [QueryPositions]
    ensures FlatDue(cfg, s, now) && inp.positions.Success? && ReportedQty(inp.positions.value) != 0.0 ==>
      var qty := ReportedQty(inp.positions.value);
      && r.actions == [QueryPositions] + FlatCancelAll(UpdatePosition(s.(lastForceFlatCheck := now), qty), inp).1
                      + [NewMarketOrder(ClosingSide(qty), Abs(qty), "flat-" + inp.token, true)]
      && (forall i :: 0 <= i < |r.actions| - 1 ==> !r.actions[i].NewMarketOrder? && !r.actions[i].NewLimitOrder?)
      && (FlatCancelConfirmed(inp) ==> r.state.buy.None? && r.state.sell.None?)
      && (!FlatCancelConfirmed(inp) ==> r.state.buy == s.buy && r.state.sell == s.sell)
      && r.handled == MarketAccepted(inp.reply)
    ensures forall i :: 0 <= i < |r.actions| ==> !r.actions[i].NewLimitOrder? && !r.actions[i].CancelOrder?
    ensures FlatClears(cfg, s, now, inp) ==> r.state.buy.None? && r.state.sell.None?
    ensures !FlatClears(cfg, s, now, inp) ==> r.state.buy == s.buy && r.state.sell == s.sell
    ensures r.handled ==>
      FlatDue(cfg, s, now) && inp.positions.Success? && ReportedQty(inp.positions.value) != 0.0
      && MarketAccepted(inp.reply)
  {
    if FlatInterval(cfg) == 0 then StageResult(false, s, [])
    else if now - s.lastForceFlatCheck < FlatInterval(cfg) as real then StageResult(false, s, [])
    else
      var checked := s.(lastForceFlatCheck := now);
      match inp.positions
      case Failure(_) => StageResult(false, checked, [QueryPositions])
      case Success(ps) =>
        var qty := ReportedQty(ps);
        var updated := UpdatePosition(checked, qty);
        if Abs(qty) <= 0.0 then StageResult(false, updated, [QueryPositions])
        else
          var (cleared, cancelActions) := FlatCancelAll(updated, inp);
          var close := NewMarketOrder(ClosingSide(qty), Abs(qty), "flat-" + inp.token, true);
          StageResult(MarketAccepted(inp.reply), cleared, [QueryPositions] + cancelActions + [close])
  }

  /** The force-flat order closes the reported position completely once filled. */
  lemma ForceFlatClosesPosition(cfg: Config, s: ShadowState, now: real, inp: FlatInputs)
    requires FlatDue(cfg, s, now) && inp.positions.Success?
    requires ReportedQty(inp.positions.value) != 0.0
    ensures var r := ForceFlat(cfg, s, now, inp);
      var order := r.actions[|r.actions| - 1];
      Filled(r.state.position, order.side, order.qty) == 0.0
  {
  }

  // ---------------------------------------------------------------------
  // Profit-taking reduction
  // ---------------------------------------------------------------------

  /** The exchange's answers to the calls profit-taking may make. */
  datatype ReduceInputs = ReduceInputs(
    positions: Reply<seq<PositionEntry>>,
    reply: OrderReply,
    token: string)

  /** Profit-taking sends its order: past 70% of the maximum with a strictly positive uPnL. */
  predicate ReduceSends(cfg: Config, s: ShadowState, inp: ReduceInputs)
  {
    && Abs(s.position) > cfg.maxPositionBtc * ReduceThresholdFraction
    && inp.positions.Success?
    && |inp.positions.value| > 0
    && inp.positions.value[0].upnl > 0.0
  }

  /**
   * `_check_and_reduce_position`. Past 70% of the maximum it queries the
   * uPnL; only when that is strictly positive does it send one reduce-only
   * market order bringing |position| back to 50% of the maximum. It never
   * touches the shadow, and only an accepted order ends the tick.
   */
  function Reduce(cfg: Config, s: ShadowState, inp: ReduceInputs): (r: StageResult)
    ensures r.state == s
    ensures Abs(s.position) <= cfg.maxPositionBtc * ReduceThresholdFraction ==> r == StageResult(false, s, [])
    ensures ReduceSends(cfg, s, inp) ==>
      r.actions == [QueryPositions, NewMarketOrder(ClosingSide(s.position),
                                                   Abs(s.position) - cfg.maxPositionBtc * ReduceTargetFraction,
                                                   "reduce-" + inp.token, true)]
    ensures Abs(s.position) > cfg.maxPositionBtc * ReduceThresholdFraction && !ReduceSends(cfg, s, inp) ==> r.actions == [QueryPositions]
    ensures r.handled <==> ReduceSends(cfg, s, inp) && MarketAccepted(inp.reply)
    ensures forall i :: 0 <= i < |r.actions| ==>
      !r.actions[i].NewLimitOrder? && !r.actions[i].CancelOrder? && !r.actions[i].CancelOrders?
  {
    var threshold := cfg.maxPositionBtc * ReduceThresholdFraction;
    var target := cfg.maxPositionBtc * ReduceTargetFraction;
    var current := Abs(s.position);
    if current <= threshold then StageResult(false, s, [])
    else
      match inp.positions
      case Failure(_) => StageResult(false, s, [QueryPositions])
      case Success(ps) =>
        if |ps| == 0 then StageResult(false, s, [QueryPositions])
        else if ps[0].upnl <= 0.0 then StageResult(false, s, [QueryPositions])
        else
          var order := NewMarketOrder(ClosingSide(s.position), current - target, "reduce-" + inp.token, true);
          StageResult(MarketAccepted(inp.reply), s, [QueryPositions, order])
  }

  /**
   * Once filled, the reduction leaves the position on the same side at
   * exactly half the maximum.
   */
  lemma ReduceLandsOnTarget(cfg: Config, s: ShadowState, inp: ReduceInputs)
    requires ReduceSends(cfg, s, inp)
    ensures var order := Reduce(cfg, s, inp).actions[1];
      && order.qty > 0.0
      && Filled(s.position, order.side, order.qty) == (if s.position > 0.0 then ReduceTargetFraction else -ReduceTargetFraction) * cfg.maxPositionBtc
  {
  }
}

=== FILE: shadow.dfy ===
/**
 * The maker's local shadow of the exchange: at most one resting order per
 * side, the signed position, the last observed price and the time of the
 * last force-flat check.
 */
module Shadow {
  import opened Wrappers

  datatype Side = Buy | Sell

  /** The opposite side: the side that reduces a position opened on `s`. */
  function Opposite(s: Side): Side
  {
    if s == Buy then Sell else Buy
  }

  /** A resting limit order as the maker remembers it. */
  datatype Order = Order(clOrdId: string, side: Side, price: real, qty: real)

  datatype ShadowState = ShadowState(
    buy: Option<Order>,
    sell: Option<Order>,
    position: real,
    lastPrice: Option<real>,
    lastForceFlatCheck: real)
  {
    /** The shadow slot of one side. */
    function Slot(side: Side): Option<Order>
    {
      if side == Buy then buy else sell
    }

    /** Each slot holds only an order of its own side. */
    predicate Valid()
    {
      && (buy.Some? ==> buy.value.side == Buy)
      && (sell.Some? ==> sell.value.side == Sell)
    }
  }

  /** The state the maker starts from before `initialize`. */
  const Empty := ShadowState(None, None, 0.0, None, 0.0)

  function Abs(x: real): (r: real)
    ensures r >= 0.0
    ensures r == x || r == -x
  {
    if x < 0.0 then -x else x
  }

  /** Replace or clear one side's shadow order, touching nothing else. */
  function SetOrder(s: ShadowState, side: Side, o: Option<Order>): (r: ShadowState)
    ensures r.Slot(side) == o
    ensures r.Slot(Opposite(side)) == s.Slot(Opposite(side))
    ensures r.position == s.position && r.lastPrice == s.lastPrice
    ensures r.lastForceFlatCheck == s.lastForceFlatCheck
  {
    if side == Buy then s.(buy := o) else s.(sell := o)
  }

  /** Forget both shadow orders. */
  function ClearAllOrders(s: ShadowState): (r: ShadowState)
    ensures r.buy.None? && r.sell.None? && r.Valid()
    ensures r.position == s.position && r.lastPrice == s.lastPrice
    ensures r.lastForceFlatCheck == s.lastForceFlatCheck
  {
    s.(buy := None, sell := None)
  }

  /** Overwrite the position from an authoritative query. */
  function UpdatePosition(s: ShadowState, qty: real): (r: ShadowState)
    ensures r.position == qty
    ensures r.buy == s.buy && r.sell == s.sell
    ensures r.lastPrice == s.lastPrice && r.lastForceFlatCheck == s.lastForceFlatCheck
  {
    s.(position := qty)
  }
}

=== FILE: wrappers.dfy ===
/** Optional values and success-or-error results used throughout the model. */
module Wrappers {

  /** A value that may be absent (Python's `None`). */
  datatype Option<+T> = None | Some(value: T) {

    /** The value, or `default` when absent (Python's `dict.get(key, default)`). */
    function GetOr(default: T): (r: T)
      ensures Some? ==> r == value
      ensures None? ==> r == default
    {
      match this
      case Some(v) => v
      case None => default
    }
  }

  /** The outcome of a call that either returns a value or raises. */
  datatype Result<+T, +E> = Success(value: T) | Failure(error: E)
}
